=== FILE: README.md ===
# Last.fm client bundle — a Dafny model of client construction

The bundle wires the external Last.fm API client into a Symfony service
container. Its logic comes down to a few decisions:

- **Runtime client factory** (`DependencyInjection\LastFmClientFactory::createClient`).
  It trims the API key, API secret and session key. It then picks one of four
  paths: authenticated (key + secret, with session), read-only (key only,
  session dropped), error (secret without key), or anonymous. Keys and secrets
  must be at least 10 bytes long, and the key is checked first. Every error
  message ends with setup instructions.
- **Explicit-path factory** (`Factory\LastFmClientFactory`). It has three entry
  points. It rejects a key or secret that is empty, `"0"` or blank, and stores
  credentials untrimmed.
- **Configuration tree** (`Configuration`). It holds five scalar options. The
  User-Agent may be at most 200 bytes and the rate-limiter id must not be
  blank. `session_key`, `user_agent` and `rate_limiter` default to null.
- **Container extension** (`CalliostroLastfmExtension`). It points the client
  service at the runtime factory, with
  `[api_key ?? null, api_secret ?? null, session_key ?? null, options]` as
  arguments. It assembles `options` (User-Agent header and rate-limiter
  handler) and registers the rate-limiter middleware and handler stack.

Each of these is a pure function here. A constructed `LastFmClient` is the
value `LastFmClient.Client` (`Anonymous`, `KeyOnly` or `Full`), which records
the credentials it was given and its options array. Thrown exceptions are
`Failure` values of a `Result`. The service container is a map from service
id to `Definition`. Whether `symfony/rate-limiter` is installed is a boolean
parameter, not a class lookup.

PHP details the model keeps:

- A PHP string is a byte string. Each `char` stands for one byte, so
  `strlen` is `|s|`.
- `trim` strips space, tab, LF, CR, NUL and vertical tab
  (`PhpString.Trim`).
- String truthiness and `empty()` treat only `""` and `"0"` as false
  (`PhpString.Truthy`). So a credential that trims to `"0"` counts as absent at
  runtime, and a `user_agent` or `rate_limiter` of `"0"` is ignored by the
  extension.
- `%d` in the length messages is `PhpString.Decimal`. `DecimalValue` reads it
  back.

Files: `wrappers.dfy` (Option/Result), `php_string.dfy` (trim, truthiness,
`%d`), `client.dfy` (client value, options), `runtime_client_factory.dfy`,
`client_factory.dfy`, `configuration.dfy`, `extension.dfy`.

Behaviour of the code that is easy to miss:

- The runtime factory treats a credential that is `"0"`, or trims to `"0"`, as
  absent.
- On the authenticated path the session is always passed as a string: the
  trimmed session key, or `""` when the session is null, `""`, `"0"` or
  blank. It is never null.
- A configured rate limiter is not put into the options directly. The
  extension registers a middleware service and a handler stack, and
  `options['handler']` references the stack.
- Lengths are byte counts.

## Model

| member | source | states |
|---|---|---|
| PhpString.LeadingBlanks | src/DependencyInjection/LastFmClientFactory.php:28 | the count stops at the first byte that is not a trim character, and everything it skips is blank |
| PhpString.TrailingBlanks | src/DependencyInjection/LastFmClientFactory.php:28 | counting back from the end stops at the last byte that is not a trim character, and everything it skips is blank |
| PhpString.Trim | src/DependencyInjection/LastFmClientFactory.php:28-30 | `trim` yields the piece of the input after its leading blanks, with no trim character at either end and only blanks around it |
| PhpString.TrimEmptyIffBlank | src/Factory/LastFmClientFactory.php:36 | `'' === trim($s)` holds exactly when every byte of `$s` is a trim character |
| PhpString.TrimmedIsFixpoint | src/DependencyInjection/LastFmClientFactory.php:28 | a value without blank ends is kept byte for byte by trimming |
| PhpString.Truthy | src/DependencyInjection/LastFmClientFactory.php:28-33 | PHP string truthiness, and `empty()` as its negation: only "" and "0" are false |
| PhpString.Decimal | src/DependencyInjection/LastFmClientFactory.php:58 | `%d` of a length is a non-empty run of digits with no leading zero |
| PhpString.DecimalRoundTrip | src/DependencyInjection/LastFmClientFactory.php:58 | the `%d` rendering of a length reads back as that length |
| PhpString.DecimalInjective | src/DependencyInjection/LastFmClientFactory.php:62 | different lengths give different `%d` texts |
| RuntimeClientFactory.Normalize | src/DependencyInjection/LastFmClientFactory.php:28-30 | `$v ? trim($v) : ''` is always trimmed, and is either "" or the trimmed given string |
| RuntimeClientFactory.Present | src/DependencyInjection/LastFmClientFactory.php:33-42 | `!empty()` of a normalised credential; characterised by `PresentIff` |
| RuntimeClientFactory.PresentIff | src/DependencyInjection/LastFmClientFactory.php:28-33 | a credential takes part in the decision exactly when it is non-null, not blank, not "0" and does not trim to "0" |
| RuntimeClientFactory.BlankNormalizesToEmpty | src/DependencyInjection/LastFmClientFactory.php:28-30 | a blank credential normalises to the same "" as null |
| RuntimeClientFactory.CreateClient | src/DependencyInjection/LastFmClientFactory.php:21-48 | every client returned keeps the caller's options and holds a trimmed, truthy key (and, on the full path, secret) of at least 10 bytes, and on the full path a trimmed session string; anonymous exactly when neither key nor secret is present; "Incomplete API credentials" exactly when only the secret is present |
| RuntimeClientFactory.CreateWithApiKeyAndSecret | src/DependencyInjection/LastFmClientFactory.php:55-69 | succeeds iff both are at least 10 bytes; on failure the key's length error wins over the secret's |
| RuntimeClientFactory.CreateWithApiKeyOnly | src/DependencyInjection/LastFmClientFactory.php:76-86 | succeeds iff the key is at least 10 bytes, with a key-only client and no session |
| RuntimeClientFactory.FullCredentialsGiveFullClient | src/DependencyInjection/LastFmClientFactory.php:33-34 | key and secret present and at least 10 bytes after trimming give an authenticated client holding the trimmed key, secret and session |
| RuntimeClientFactory.KeyOnlyIgnoresSession | src/DependencyInjection/LastFmClientFactory.php:37-38 | with a key and no secret the session key has no effect, and a long enough key gives a read-only client |
| RuntimeClientFactory.SecretWithoutKeyFails | src/DependencyInjection/LastFmClientFactory.php:42-44 | a secret without a key always fails with incomplete credentials |
| RuntimeClientFactory.ShortKeyReportedFirst | src/DependencyInjection/LastFmClientFactory.php:57-59 | a present key under 10 bytes fails with its trimmed length, whatever the secret |
| RuntimeClientFactory.ShortSecretReported | src/DependencyInjection/LastFmClientFactory.php:61-63 | with a valid key, a present secret under 10 bytes fails with its trimmed length |
| RuntimeClientFactory.AbsentIsNull | src/DependencyInjection/LastFmClientFactory.php:28-30 | an absent key, secret or session gives the same result as null |
| RuntimeClientFactory.BlankCredentialsAreAnonymous | src/DependencyInjection/LastFmClientFactory.php:28-47 | three blank credentials behave as three nulls and give an anonymous client |
| RuntimeClientFactory.KeyLengthBoundary | src/DependencyInjection/LastFmClientFactory.php:78-80 | a key of exactly 10 bytes is accepted and one of 9 is rejected, reporting 9 |
| RuntimeClientFactory.SetupInstructions | src/DependencyInjection/LastFmClientFactory.php:91-111 | the text of `getSetupInstructions()`, byte for byte; its landmarks are stated by `SetupInstructionsHelpful` |
| RuntimeClientFactory.Reason | src/DependencyInjection/LastFmClientFactory.php:43-62 | the sentence each exception starts with, with the length printed by `%d`; its lead and number are stated by the length lemmas |
| RuntimeClientFactory.Message | src/DependencyInjection/LastFmClientFactory.php:43-62 | each exception message is its reason followed by the setup instructions; stated by `MessageEndsWithInstructions` |
| RuntimeClientFactory.SetupInstructionsHelpful | src/DependencyInjection/LastFmClientFactory.php:91-111 | the setup instructions contain their heading, the account-creation URL and `%env(LASTFM_API_KEY)%` |
| RuntimeClientFactory.MessageEndsWithInstructions | src/DependencyInjection/LastFmClientFactory.php:43 | every error message ends with the setup instructions and so names the URL and the placeholder |
| RuntimeClientFactory.InstructionsAfter | src/DependencyInjection/LastFmClientFactory.php:91-111 | whatever text comes first, appending the setup instructions leaves them at the end, with their heading, URL and placeholder inside |
| RuntimeClientFactory.KeyMessageReportsLength | src/DependencyInjection/LastFmClientFactory.php:57-59 | a short-key error starts with its fixed lead, and the number after the lead reads back as the key's actual length |
| RuntimeClientFactory.SecretMessageReportsLength | src/DependencyInjection/LastFmClientFactory.php:61-63 | a short-secret error starts with its fixed lead, and the number after the lead reads back as the secret's actual length |
| ClientFactory.Missing | src/Factory/LastFmClientFactory.php:36 | `empty($v)` or `'' === trim($v)`: the credential is rejected; characterised by `MissingIff` |
| ClientFactory.MissingIff | src/Factory/LastFmClientFactory.php:36 | a credential is rejected exactly when it is "0" or blank |
| ClientFactory.CreateClient | src/Factory/LastFmClientFactory.php:29-48 | succeeds iff neither key nor secret is missing, storing both untrimmed with the session; a missing key is reported before a missing secret |
| ClientFactory.CreateClientWithApiKey | src/Factory/LastFmClientFactory.php:61-73 | the same key rule, then a key-only client with the key as given |
| ClientFactory.CreateBasicClient | src/Factory/LastFmClientFactory.php:83-86 | never fails; an anonymous client with the given options |
| ClientFactory.NoLengthMinimumNoTrimming | src/Factory/LastFmClientFactory.php:36-45 | any non-blank credential other than "0" is accepted, however short, and stored as given |
| ClientFactory.MissingImpliesRuntimeAbsent | src/Factory/LastFmClientFactory.php:36 | whatever this factory rejects, the runtime factory treats as absent |
| ClientFactory.PaddedZeroAcceptedHereAbsentAtRuntime | src/DependencyInjection/LastFmClientFactory.php:28-33 | a value such as " 0" is accepted by the explicit factory but absent for the runtime factory |
| ClientFactory.Message | src/Factory/LastFmClientFactory.php:37-41 | the two exception texts, byte for byte; their content is stated by the two message lemmas |
| ClientFactory.KeyMessageGuidesTheUser | src/Factory/LastFmClientFactory.php:36-38 | the missing-key message names LASTFM_API_KEY and ends with the account-creation URL |
| ClientFactory.SecretMessageGuidesTheUser | src/Factory/LastFmClientFactory.php:40-42 | the missing-secret message names LASTFM_SECRET and authenticated operations, and ends with the account-creation URL |
| Configuration.OrNull | src/DependencyInjection/Configuration.php:25-26 | an unset or null option is null; a given string is kept |
| Configuration.Process | src/DependencyInjection/Configuration.php:12-48 | succeeds iff neither rule fires; a too-long User-Agent is reported even when the rate limiter is also invalid, and otherwise a blank rate limiter gives its own error; credentials are copied verbatim and absent ones stay absent |
| Configuration.ProcessedIsValid | src/DependencyInjection/Configuration.php:29-44 | every processed configuration has a User-Agent of at most 200 bytes and a non-blank rate-limiter id |
| Configuration.EmptyConfigDefaults | src/DependencyInjection/Configuration.php:19-39 | an empty configuration has no api_key or api_secret and null session_key, user_agent and rate_limiter |
| Configuration.UserAgentInvalid | src/DependencyInjection/Configuration.php:33 | a User-Agent string longer than 200 bytes is rejected; stated at the boundary by `UserAgentBoundary` |
| Configuration.RateLimiterInvalid | src/DependencyInjection/Configuration.php:41 | a rate-limiter string that trims to "" is rejected; characterised through `Blank` by `RateLimiterRule` |
| Configuration.UserAgentBoundary | src/DependencyInjection/Configuration.php:33-34 | a User-Agent of at most 200 bytes is kept; one of 201 bytes is rejected |
| Configuration.RateLimiterRule | src/DependencyInjection/Configuration.php:41-42 | a blank rate-limiter id is rejected; any other string is kept as written |
| Configuration.CredentialsNotValidated | src/DependencyInjection/Configuration.php:19-27 | empty, blank or short credentials pass processing unchanged |
| Extension.NonEmpty | src/DependencyInjection/CalliostroLastfmExtension.php:62-67 | `!empty($config[...])` on an option that defaults to null; spelled out by `UserAgentHeaderIff` |
| Extension.ClientArguments | src/DependencyInjection/CalliostroLastfmExtension.php:44-49 | the four constructor arguments of the client service; stated by `LoadWiresRuntimeFactory` |
| Extension.CredentialArgument | src/DependencyInjection/CalliostroLastfmExtension.php:45-46 | `$config[...] ?? null` is the configured string, or null when the option is absent or null |
| Extension.NullableArgument | src/DependencyInjection/CalliostroLastfmExtension.php:47 | the session argument is the configured string or null |
| Extension.LoadServices | src/Resources/config/services.php:14-29 | the services file adds the factory and client definitions and the abstract middleware placeholder, and leaves other services alone |
| Extension.ConfigureSymfonyRateLimiter | src/DependencyInjection/CalliostroLastfmExtension.php:79-102 | fails iff the component is missing; otherwise it adds the handler reference to the options and registers exactly the middleware and the handler stack |
| Extension.GetClientOptions | src/DependencyInjection/CalliostroLastfmExtension.php:57-72 | options hold only `headers` and `handler`; `headers` iff user_agent is non-empty, with that User-Agent; `handler` iff rate_limiter is non-empty, referencing the handler stack; fails iff a rate limiter is set and unavailable; the container changes only when a rate limiter is set, and then only by the middleware and handler-stack services |
| Extension.ConfigureClient | src/DependencyInjection/CalliostroLastfmExtension.php:38-50 | the client definition gets the runtime factory and the four arguments; nothing else changes beyond the rate-limiter services |
| Extension.LoadWiresRuntimeFactory | src/DependencyInjection/CalliostroLastfmExtension.php:43-49 | after a load the client service uses `di_client_factory::createClient` with exactly `[api_key ?? null, api_secret ?? null, session_key ?? null, options]`, and no method calls such as `setApiCredentials` |
| Extension.Load | src/DependencyInjection/CalliostroLastfmExtension.php:23-33 | a configuration error is reported as such; otherwise the load fails exactly when a non-empty rate limiter is set and the component is missing; a successful load keeps every existing service id, adds the services file's ids, and wires the client to `createClient` |
| Extension.LoadThenInstantiate | src/DependencyInjection/CalliostroLastfmExtension.php:23-33 | building the loaded client service is the runtime factory applied to the configured credentials and assembled options |
| Extension.EmptyConfigGivesAnonymousClient | src/DependencyInjection/CalliostroLastfmExtension.php:43-49 | an empty configuration loads and yields an anonymous client with empty options |
| Extension.UserAgentHeaderIff | src/DependencyInjection/CalliostroLastfmExtension.php:62-64 | the User-Agent header is set iff user_agent is neither null, "" nor "0", and then equals it |
| Extension.NoRateLimiterNoHandler | src/DependencyInjection/CalliostroLastfmExtension.php:67-69 | without a rate limiter, the options have no handler, no handler stack is registered, and the middleware stays the services file's abstract placeholder |
| Extension.RateLimiterWired | src/DependencyInjection/CalliostroLastfmExtension.php:86-101 | with a rate limiter and the component, the middleware gets (limiter reference, "lastfm_api"), the stack pushes it as "rate_limiter", and the options' handler references the stack |
| Extension.RateLimiterUnavailableFails | src/DependencyInjection/CalliostroLastfmExtension.php:82-84 | with a rate limiter but no component, loading fails with the error that asks to install symfony/rate-limiter |
| Extension.ZeroRateLimiterIgnored | src/DependencyInjection/CalliostroLastfmExtension.php:67-69 | a rate-limiter id of "0" passes the configuration rule but is ignored: no handler and no error |
| Extension.LoadNeverMissesClient | src/DependencyInjection/CalliostroLastfmExtension.php:23-33 | because services are loaded first, a load never fails for lack of the client definition |

## Left out

- `src/Middleware/RateLimiterMiddleware.php`: a sleep-and-retry loop around an external limiter. It depends on wall-clock time and a foreign component.
- The external `LastFmClient`, its HTTP transport and `setApiCredentials`: represented only by the `Client` value.
- `isRateLimiterAvailable` (`class_exists`): replaced by a boolean parameter.
- `src/CalliostroLastfmBundle.php` and `getAlias`: framework plumbing.
- The legacy `CalliostroLastFmClientExtension` and the one-line `*Factory.php` wrappers around the external library.
- Extension.LoadServices: models the three definitions of `src/Resources/config/services.php` (factory, client, abstract middleware placeholder). The autowiring alias and the public/private flags are container metadata and are left out.
- Configuration.Process: handles one configuration array whose values are null or strings. Symfony's merging of several arrays, its rejection of unknown keys and of array values, and non-string scalars such as integers (which the `is_string` guards let through) belong to the config library.
- Configuration.Message: the rule's own text only. Symfony adds an "Invalid configuration for path" prefix.
- `%env()%` resolution and container compilation: done by the host framework before the factory runs. The model starts from resolved strings.
- Extension.Instantiate: stands for the container building the client service. It calls the runtime factory with the definition's arguments, keeps `Reference`s unresolved, and does not model the rest of Symfony's instantiation (autowiring, compilation passes, service lifetimes).
- Extension.Message: the `ServiceNotFound` text follows Symfony's wording. This error cannot arise from `Load`, because the services file always defines the client.

=== FILE: client.dfy ===
/**
 * The abstract value that stands for a constructed `LastFmClient` of the
 * external library. The model records only which credentials the client
 * was given and the options array it was constructed with.
 */
module LastFmClient {
  import opened Wrappers

  /** A PHP value as it appears in an options array or in a service definition's arguments. */
  datatype Value =
    | Null
    | Str(s: string)
    | Int(i: int)
    /** A container `Reference` to the service with this id. */
    | Ref(id: string)
    /** A nested associative array. */
    | Dict(entries: map<string, Value>)

  /** Where Last.fm API credentials are created; every missing-credential message points there. */
  const AccountCreateUrl := "https://www.last.fm/api/account/create"

  /** The `array<string, mixed> $options` handed to the client constructor. */
  type Options = map<string, Value>

  /**
   * How a client was set up:
   * - `Anonymous`: `new LastFmClient($options)` and nothing else;
   * - `KeyOnly`: `setApiCredentials($apiKey)` was called;
   * - `Full`: `setApiCredentials($apiKey, $apiSecret, $sessionKey)` was called.
   */
  datatype Client =
    | Anonymous(options: Options)
    | KeyOnly(apiKey: string, options: Options)
    | Full(apiKey: string, apiSecret: string, sessionKey: Option<string>, options: Options)
}

=== FILE: client_factory.dfy ===
/**
 * The explicit-path factory: three public entry points, each choosing the
 * authentication mode itself. Its only rule is that a key or secret must
 * not be empty, "0" or blank; values are stored exactly as given.
 */
module ClientFactory {
  import opened Wrappers
  import opened PhpString
  import opened LastFmClient
  import RuntimeClientFactory

  /** The `InvalidArgumentException`s the factory can throw. */
  datatype FactoryError = ApiKeyRequired | ApiSecretRequired

  /** `empty($v) || '' === trim($v)`: the credential is unusable. */
  predicate Missing(s: string) {
    !Truthy(s) || Trim(s) == ""
  }

  /** A credential is rejected exactly when it is "0" or consists of trim characters only. */
  lemma MissingIff(s: string)
    ensures Missing(s) <==> s == "0" || Blank(s)
  {
    TrimEmptyIffBlank(s);
  }

  /**
   * `createClient($apiKey, $apiSecret, $options, $sessionKey)`: an
   * authenticated client holding the given values untouched. The key is
   * checked before the secret; no length minimum applies.
   */
  function CreateClient(apiKey: string, apiSecret: string, options: Options := map[], sessionKey: Option<string> := None)
    : (r: Result<Client, FactoryError>)
    ensures r.Success? <==> !Missing(apiKey) && !Missing(apiSecret)
    ensures r.Success? ==> r.value == Full(apiKey, apiSecret, sessionKey, options)
    ensures Missing(apiKey) ==> r == Failure(ApiKeyRequired)
    ensures !Missing(apiKey) && Missing(apiSecret) ==> r == Failure(ApiSecretRequired)
  {
    if Missing(apiKey) then
      Failure(ApiKeyRequired)
    else if Missing(apiSecret) then
      Failure(ApiSecretRequired)
    else
      Success(Full(apiKey, apiSecret, sessionKey, options))
  }

  /** `createClientWithApiKey($apiKey, $options)`: the key rule alone, then a read-only client. */
  function CreateClientWithApiKey(apiKey: string, options: Options := map[]): (r: Result<Client, FactoryError>)
    ensures r.Success? <==> !Missing(apiKey)
    ensures r.Success? ==> r.value == KeyOnly(apiKey, options)
    ensures r.Failure? ==> r.error == ApiKeyRequired
  {
    if Missing(apiKey) then Failure(ApiKeyRequired) else Success(KeyOnly(apiKey, options))
  }

  /** `createBasicClient($options)`: never fails and carries no credentials. */
  function CreateBasicClient(options: Options := map[]): (c: Client)
    ensures c.Anonymous? && c.options == options
  {
    Anonymous(options)
  }

  /** Any non-blank credential other than "0" is accepted, however short, and kept untrimmed. */
  lemma NoLengthMinimumNoTrimming(apiKey: string, apiSecret: string, options: Options, sessionKey: Option<string>)
    requires apiKey != "0" && !Blank(apiKey) && apiSecret != "0" && !Blank(apiSecret)
    ensures CreateClient(apiKey, apiSecret, options, sessionKey) == Success(Full(apiKey, apiSecret, sessionKey, options))
    ensures CreateClientWithApiKey(apiKey, options) == Success(KeyOnly(apiKey, options))
  {
    MissingIff(apiKey);
    MissingIff(apiSecret);
  }

  /** Every credential this factory rejects, the runtime factory treats as absent. */
  lemma MissingImpliesRuntimeAbsent(s: string)
    requires Missing(s)
    ensures !RuntimeClientFactory.Present(Some(s))
  {
    MissingIff(s);
    RuntimeClientFactory.PresentIff(Some(s));
  }

  /**
   * The converse fails: a padded "0" such as " 0" is accepted here but
   * counts as absent at runtime.
   */
  lemma PaddedZeroAcceptedHereAbsentAtRuntime(s: string)
    requires s != "0" && Trim(s) == "0"
    ensures !Missing(s)
    ensures !RuntimeClientFactory.Present(Some(s))
  {
    TrimEmptyIffBlank(s);
  }

  // ----- error messages -----

  const ApiKeyEnvName := "LASTFM_API_KEY"
  const ApiSecretEnvName := "LASTFM_SECRET"
  const AuthenticatedOperations := "authenticated operations"
  const EnvironmentVariable := " environment variable. "

  /** The message up to the variable name, and from there to the URL, for a missing key. */
  const ApiKeyLead := "Last.fm API key is required. Please configure "
  const ApiKeyTail := EnvironmentVariable + "Get your API key from: " + AccountCreateUrl

  /** The same pieces for a missing secret; its lead names authenticated operations. */
  const ApiSecretLeadStart := "Last.fm API secret is required for "
  const ApiSecretLead := ApiSecretLeadStart + AuthenticatedOperations + ". Please configure "
  const ApiSecretTail := EnvironmentVariable + "Get your API secret from: " + AccountCreateUrl

  function Message(e: FactoryError): string {
    match e
    case ApiKeyRequired => ApiKeyLead + ApiKeyEnvName + ApiKeyTail
    case ApiSecretRequired => ApiSecretLead + ApiSecretEnvName + ApiSecretTail
  }

  /** The missing-key message names `LASTFM_API_KEY` and ends with the account-creation URL. */
  lemma KeyMessageGuidesTheUser()
    ensures IsInfix(ApiKeyEnvName, Message(ApiKeyRequired))
    ensures IsSuffix(AccountCreateUrl, Message(ApiKeyRequired))
  {
    InfixOfConcat(ApiKeyLead, ApiKeyEnvName, ApiKeyTail);
    SuffixOfConcat(EnvironmentVariable + "Get your API key from: ", AccountCreateUrl);
    SuffixOfSuffix(AccountCreateUrl, ApiKeyTail, ApiKeyLead + ApiKeyEnvName);
  }

  /**
   * The missing-secret message names `LASTFM_SECRET`, says the secret is
   * needed for authenticated operations, and ends with the account-creation URL.
   */
  lemma SecretMessageGuidesTheUser()
    ensures IsInfix(ApiSecretEnvName, Message(ApiSecretRequired))
    ensures IsInfix(AuthenticatedOperations, Message(ApiSecretRequired))
    ensures IsSuffix(AccountCreateUrl, Message(ApiSecretRequired))
  {
    InfixOfConcat(ApiSecretLead, ApiSecretEnvName, ApiSecretTail);
    InfixOfConcat(ApiSecretLeadStart, AuthenticatedOperations, ". Please configure ");
    InfixOfPrefix(AuthenticatedOperations, ApiSecretLead, ApiSecretEnvName);
    InfixOfPrefix(AuthenticatedOperations, ApiSecretLead + ApiSecretEnvName, ApiSecretTail);
    SuffixOfConcat(EnvironmentVariable + "Get your API secret from: ", AccountCreateUrl);
    SuffixOfSuffix(AccountCreateUrl, ApiSecretTail, ApiSecretLead + ApiSecretEnvName);
  }
}

=== FILE: configuration.dfy ===
/**
 * The `calliostro_lastfm` configuration tree: five scalar options, the
 * defaults of the optional ones, and the two validation rules.
 */
module Configuration {
  import opened Wrappers
  import opened PhpString

  /** How one option appears in the user's configuration array. */
  datatype Setting =
    | Unset
    | Null
    | Given(s: string)

  /** The options as the user wrote them (one configuration array). */
  datatype RawConfig = RawConfig(
    apiKey: Setting,
    apiSecret: Setting,
    sessionKey: Setting,
    userAgent: Setting,
    rateLimiter: Setting)

  /**
   * The processed configuration. `api_key` and `api_secret` have no default
   * and stay `Unset` when not written; the other three default to null.
   */
  datatype Config = Config(
    apiKey: Setting,
    apiSecret: Setting,
    sessionKey: Option<string>,
    userAgent: Option<string>,
    rateLimiter: Option<string>)

  /** The `InvalidConfigurationException`s the tree's own rules raise. */
  datatype ConfigError = UserAgentTooLong | EmptyRateLimiter

  const MaxUserAgentLength: nat := 200

  function Message(e: ConfigError): string {
    match e
    case UserAgentTooLong => "User-Agent cannot be longer than 200 characters"
    case EmptyRateLimiter => "Rate limiter service ID cannot be empty"
  }

  /** The `user_agent` rule: a string longer than 200 bytes is invalid. */
  predicate UserAgentInvalid(v: Setting) {
    v.Given? && |v.s| > MaxUserAgentLength
  }

  /** The `rate_limiter` rule: a string that trims to "" is invalid. */
  predicate RateLimiterInvalid(v: Setting) {
    v.Given? && Trim(v.s) == ""
  }

  /** `->defaultNull()`: an unset or null option becomes null. */
  function OrNull(v: Setting): (r: Option<string>)
    ensures r.Some? <==> v.Given?
    ensures r.Some? ==> r.value == v.s
  {
    match v
    case Given(s) => Some(s)
    case _ => None
  }

  /**
   * Processing of one configuration array: the rules run in the order the
   * options are declared, so `user_agent` is checked before `rate_limiter`.
   * Credentials are not validated here and are kept verbatim.
   */
  function Process(raw: RawConfig): (r: Result<Config, ConfigError>)
    ensures r.Success? <==> !UserAgentInvalid(raw.userAgent) && !RateLimiterInvalid(raw.rateLimiter)
    ensures UserAgentInvalid(raw.userAgent) ==> r == Failure(UserAgentTooLong)
    ensures !UserAgentInvalid(raw.userAgent) && RateLimiterInvalid(raw.rateLimiter) ==> r == Failure(EmptyRateLimiter)
    ensures r.Success? ==> r.value.apiKey == raw.apiKey && r.value.apiSecret == raw.apiSecret
    ensures r.Success? ==>
              && r.value.sessionKey == OrNull(raw.sessionKey)
              && r.value.userAgent == OrNull(raw.userAgent)
              && r.value.rateLimiter == OrNull(raw.rateLimiter)
  {
    if UserAgentInvalid(raw.userAgent) then
      Failure(UserAgentTooLong)
    else if RateLimiterInvalid(raw.rateLimiter) then
      Failure(EmptyRateLimiter)
    else
      Success(Config(raw.apiKey, raw.apiSecret, OrNull(raw.sessionKey), OrNull(raw.userAgent), OrNull(raw.rateLimiter)))
  }

  /** Every processed configuration satisfies both rules. */
  predicate Valid(c: Config) {
    && (c.userAgent.Some? ==> |c.userAgent.value| <= MaxUserAgentLength)
    && (c.rateLimiter.Some? ==> !Blank(c.rateLimiter.value))
  }

  lemma ProcessedIsValid(raw: RawConfig)
    requires Process(raw).Success?
    ensures Valid(Process(raw).value)
  {
    if raw.rateLimiter.Given? {
      TrimEmptyIffBlank(raw.rateLimiter.s);
    }
  }

  /** The empty configuration: no credentials, every optional key null. */
  lemma EmptyConfigDefaults()
    ensures Process(RawConfig(Unset, Unset, Unset, Unset, Unset)) == Success(Config(Unset, Unset, None, None, None))
  {
  }

  /** A User-Agent of up to 200 bytes is accepted as written; one byte more is rejected. */
  lemma UserAgentBoundary(raw: RawConfig, ua: string)
    requires !RateLimiterInvalid(raw.rateLimiter)
    ensures |ua| <= MaxUserAgentLength ==>
              && Process(raw.(userAgent := Given(ua))).Success?
              && Process(raw.(userAgent := Given(ua))).value.userAgent == Some(ua)
    ensures |ua| == MaxUserAgentLength + 1 ==> Process(raw.(userAgent := Given(ua))) == Failure(UserAgentTooLong)
  {
  }

  /** A blank rate-limiter id is rejected; any other string is kept, whitespace included. */
  lemma RateLimiterRule(raw: RawConfig, id: string)
    requires !UserAgentInvalid(raw.userAgent)
    ensures Blank(id) ==> Process(raw.(rateLimiter := Given(id))) == Failure(EmptyRateLimiter)
    ensures !Blank(id) ==>
              && Process(raw.(rateLimiter := Given(id))).Success?
              && Process(raw.(rateLimiter := Given(id))).value.rateLimiter == Some(id)
  {
    TrimEmptyIffBlank(id);
  }

  /** Empty, blank or short credentials pass processing unchanged; their checks happen at runtime. */
  lemma CredentialsNotValidated(raw: RawConfig, key: string, secret: string, session: string)
    requires Process(raw).Success?
    ensures var r := Process(raw.(apiKey := Given(key), apiSecret := Given(secret), sessionKey := Given(session)));
            && r.Success?
            && r.value.apiKey == Given(key)
            && r.value.apiSecret == Given(secret)
            && r.value.sessionKey == Some(session)
  {
  }
}

=== FILE: extension.dfy ===
/**
 * The bundle's container extension: after processing the configuration it
 * points the client service at the runtime factory, with the credentials
 * and an options array as arguments, and wires the optional rate limiter.
 *
 * The service container is modelled as a map from service id to
 * definition; whether the rate-limiter component is installed is a
 * parameter instead of a class lookup.
 */
module Extension {
  import opened Wrappers
  import opened PhpString
  import opened LastFmClient
  import Configuration
  import RuntimeClientFactory

  /** A definition's factory: a method on another service, or a static method. */
  datatype Callable =
    | ServiceMethod(service: string, methodName: string)
    | StaticMethod(className: string, methodName: string)

  datatype MethodCall = MethodCall(methodName: string, args: seq<Value>)

  /** A service definition; an abstract one is a placeholder that is never instantiated. */
  datatype Definition = Definition(
    className: string,
    factory: Option<Callable>,
    arguments: seq<Value>,
    calls: seq<MethodCall>,
    isAbstract: bool)

  type Container = map<string, Definition>

  const ClientId := "calliostro_lastfm.lastfm_client"
  const FactoryId := "calliostro_lastfm.di_client_factory"
  const MiddlewareId := "calliostro_lastfm.rate_limiter_middleware"
  const HandlerStackId := "calliostro_lastfm.rate_limiter_handler_stack"

  const ClientClass := "Calliostro\\LastFm\\LastFmClient"
  const FactoryClass := "Calliostro\\LastfmBundle\\DependencyInjection\\LastFmClientFactory"
  const MiddlewareClass := "Calliostro\\LastfmBundle\\Middleware\\RateLimiterMiddleware"
  const HandlerStackClass := "GuzzleHttp\\HandlerStack"

  /** The key the middleware consumes tokens under, and the name it is pushed with. */
  const LimiterKey := "lastfm_api"
  const MiddlewareName := "rate_limiter"

  const HeadersKey := "headers"
  const HandlerKey := "handler"
  const UserAgentHeader := "User-Agent"

  datatype LoadError =
    | InvalidConfiguration(configError: Configuration.ConfigError)
    | RateLimiterUnavailable
    | ServiceNotFound(id: string)

  const RateLimiterUnavailableLead := "To use the rate_limiter configuration, you must install symfony/rate-limiter"

  function Message(e: LoadError): string {
    match e
    case InvalidConfiguration(ce) => Configuration.Message(ce)
    case RateLimiterUnavailable => RateLimiterUnavailableLead + ". Run: composer require symfony/rate-limiter"
    case ServiceNotFound(id) => "You have requested a non-existent service \"" + id + "\"."
  }

  /** `!empty($config[...])` for an option that defaults to null. */
  predicate NonEmpty(v: Option<string>) {
    v.Some? && Truthy(v.value)
  }

  /** `$config['api_key'] ?? null` as a definition argument. */
  function CredentialArgument(v: Configuration.Setting): (a: Value)
    ensures a.Null? || a.Str?
    ensures a.Str? <==> v.Given?
    ensures a.Str? ==> a.s == v.s
  {
    match v
    case Given(s) => Str(s)
    case _ => Null
  }

  function NullableArgument(v: Option<string>): (a: Value)
    ensures a.Null? || a.Str?
    ensures a.Str? <==> v.Some?
    ensures a.Str? ==> a.s == v.value
  {
    match v
    case Some(s) => Str(s)
    case None => Null
  }

  /** The four constructor arguments of the client service. */
  function ClientArguments(config: Configuration.Config, options: Options): seq<Value> {
    [CredentialArgument(config.apiKey), CredentialArgument(config.apiSecret), NullableArgument(config.sessionKey), Dict(options)]
  }

  // ----- services file -----

  /**
   * The abstract middleware definition the services file declares; the
   * extension replaces it when a rate limiter is configured.
   */
  const MiddlewarePlaceholder := Definition(MiddlewareClass, None, [], [], true)

  /**
   * The services file: the runtime factory, the client, and the abstract
   * middleware placeholder.
   */
  function LoadServices(c: Container): (r: Container)
    ensures r.Keys == c.Keys + {FactoryId, ClientId, MiddlewareId}
    ensures r[ClientId].className == ClientClass && !r[ClientId].isAbstract
    ensures r[FactoryId].className == FactoryClass && !r[FactoryId].isAbstract
    ensures r[MiddlewareId] == MiddlewarePlaceholder && r[MiddlewareId].isAbstract
    ensures forall id :: id in c && id != FactoryId && id != ClientId && id != MiddlewareId ==> r[id] == c[id]
  {
    c[FactoryId := Definition(FactoryClass, None, [], [], false)]
     [ClientId := Definition(ClientClass, None, [], [], false)]
     [MiddlewareId := MiddlewarePlaceholder]
  }

  // ----- the extension -----

  /**
   * `configureSymfonyRateLimiter`: fails when the component is missing;
   * otherwise registers the middleware and the handler stack that pushes
   * it, and points the options' handler at that stack.
   */
  function ConfigureSymfonyRateLimiter(c: Container, rateLimiterService: string, options: Options, limiterAvailable: bool)
    : (r: Result<(Container, Options), LoadError>)
    ensures r.Failure? <==> !limiterAvailable
    ensures r.Failure? ==> r.error == RateLimiterUnavailable
    ensures r.Success? ==> r.value.1 == options[HandlerKey := Ref(HandlerStackId)]
    ensures r.Success? ==> r.value.0.Keys == c.Keys + {MiddlewareId, HandlerStackId}
    ensures r.Success? ==> forall id :: id in c && id != MiddlewareId && id != HandlerStackId ==> r.value.0[id] == c[id]
  {
    if !limiterAvailable then
      Failure(RateLimiterUnavailable)
    else
      var middleware := Definition(MiddlewareClass, None, [Ref(rateLimiterService), Str(LimiterKey)], [], false);
      var handler := Definition(HandlerStackClass, Some(StaticMethod(HandlerStackClass, "create")), [],
                                [MethodCall("push", [Ref(MiddlewareId), Str(MiddlewareName)])], false);
      Success((c[MiddlewareId := middleware][HandlerStackId := handler], options[HandlerKey := Ref(HandlerStackId)]))
  }

  /** `getClientOptions`: an optional User-Agent header, then the optional rate limiter. */
  function GetClientOptions(c: Container, config: Configuration.Config, limiterAvailable: bool)
    : (r: Result<(Container, Options), LoadError>)
    ensures r.Failure? <==> NonEmpty(config.rateLimiter) && !limiterAvailable
    ensures r.Failure? ==> r.error == RateLimiterUnavailable
    ensures r.Success? ==> r.value.1.Keys <= {HeadersKey, HandlerKey}
    ensures r.Success? ==> (HeadersKey in r.value.1 <==> NonEmpty(config.userAgent))
    ensures r.Success? && NonEmpty(config.userAgent) ==>
              r.value.1[HeadersKey] == Dict(map[UserAgentHeader := Str(config.userAgent.value)])
    ensures r.Success? ==> (HandlerKey in r.value.1 <==> NonEmpty(config.rateLimiter))
    ensures r.Success? && NonEmpty(config.rateLimiter) ==> r.value.1[HandlerKey] == Ref(HandlerStackId)
    ensures r.Success? && !NonEmpty(config.rateLimiter) ==> r.value.0 == c
    ensures r.Success? && NonEmpty(config.rateLimiter) ==>
              && r.value.0.Keys == c.Keys + {MiddlewareId, HandlerStackId}
              && forall id :: id in c && id != MiddlewareId && id != HandlerStackId ==> r.value.0[id] == c[id]
  {
    var options: Options :=
      if NonEmpty(config.userAgent) then map[HeadersKey := Dict(map[UserAgentHeader := Str(config.userAgent.value)])]
      else map[];
    if NonEmpty(config.rateLimiter) then
      ConfigureSymfonyRateLimiter(c, config.rateLimiter.value, options, limiterAvailable)
    else
      Success((c, options))
  }

  /**
   * `configureClient`: the client service is built by the runtime factory's
   * `createClient` from the three credentials and the options.
   */
  function ConfigureClient(c: Container, config: Configuration.Config, limiterAvailable: bool): (r: Result<Container, LoadError>)
    ensures ClientId !in c ==> r == Failure(ServiceNotFound(ClientId))
    ensures ClientId in c ==> (r.Success? <==> GetClientOptions(c, config, limiterAvailable).Success?)
    ensures r.Success? ==>
              var (c', options) := GetClientOptions(c, config, limiterAvailable).value;
              && r.value.Keys == c'.Keys
              && r.value[ClientId] == c[ClientId].(factory := Some(ServiceMethod(FactoryId, "createClient")),
                                                  arguments := ClientArguments(config, options))
              && forall id :: id in c' && id != ClientId ==> r.value[id] == c'[id]
  {
    if ClientId !in c then
      Failure(ServiceNotFound(ClientId))
    else
      var definition := c[ClientId];
      match GetClientOptions(c, config, limiterAvailable)
      case Failure(e) => Failure(e)
      case Success((c', options)) =>
        var wired := definition.(factory := Some(ServiceMethod(FactoryId, "createClient")),
                                 arguments := ClientArguments(config, options));
        Success(c'[ClientId := wired])
  }

  /** `load`: process the configuration, load the services file, configure the client. */
  function Load(raw: Configuration.RawConfig, limiterAvailable: bool, c: Container): (r: Result<Container, LoadError>)
    ensures Configuration.Process(raw).Failure? ==> r == Failure(InvalidConfiguration(Configuration.Process(raw).error))
    ensures Configuration.Process(raw).Success? ==>
              (r.Failure? <==> NonEmpty(Configuration.Process(raw).value.rateLimiter) && !limiterAvailable)
    ensures r.Failure? ==> r.error.InvalidConfiguration? || r.error == RateLimiterUnavailable
    ensures r.Success? ==>
              && c.Keys + {FactoryId, ClientId, MiddlewareId} <= r.value.Keys
              && r.value[ClientId].factory == Some(ServiceMethod(FactoryId, "createClient"))
  {
    match Configuration.Process(raw)
    case Failure(e) => Failure(InvalidConfiguration(e))
    case Success(config) => ConfigureClient(LoadServices(c), config, limiterAvailable)
  }

  // ----- what the container does with the client definition -----

  /** Reads back a `?string` argument: null, a string, or not a credential value at all. */
  function CredentialOf(a: Value): Option<Option<string>> {
    match a
    case Null => Some(None)
    case Str(s) => Some(Some(s))
    case _ => None
  }

  /**
   * Instantiating the client service: call the runtime factory with the
   * definition's arguments, if it is wired to that factory with four
   * arguments of the right shape.
   */
  function Instantiate(c: Container): Option<Result<Client, RuntimeClientFactory.BuildError>> {
    if ClientId !in c then None
    else
      var d := c[ClientId];
      if FactoryId !in c || c[FactoryId].className != FactoryClass then None
      else if d.factory != Some(ServiceMethod(FactoryId, "createClient")) || |d.arguments| != 4 || !d.arguments[3].Dict? then None
      else
        match (CredentialOf(d.arguments[0]), CredentialOf(d.arguments[1]), CredentialOf(d.arguments[2]))
        case (Some(key), Some(secret), Some(session)) =>
          Some(RuntimeClientFactory.CreateClient(key, secret, session, d.arguments[3].entries))
        case _ => None
  }

  // ----- properties of a load -----

  /**
   * After a successful load the client service is built by the runtime
   * factory from exactly `[api_key ?? null, api_secret ?? null,
   * session_key ?? null, options]`.
   */
  lemma LoadWiresRuntimeFactory(raw: Configuration.RawConfig, limiterAvailable: bool, c: Container)
    requires Load(raw, limiterAvailable, c).Success?
    ensures Configuration.Process(raw).Success?
    ensures var config := Configuration.Process(raw).value;
            var c' := Load(raw, limiterAvailable, c).value;
            var options := GetClientOptions(LoadServices(c), config, limiterAvailable).value.1;
            && ClientId in c'
            && c'[ClientId].className == ClientClass
            && c'[ClientId].factory == Some(ServiceMethod(FactoryId, "createClient"))
            && c'[ClientId].calls == []
            && c'[ClientId].arguments == [CredentialArgument(raw.apiKey), CredentialArgument(raw.apiSecret),
                                          NullableArgument(config.sessionKey), Dict(options)]
  {
  }

  /**
   * Building the loaded client service is the runtime factory applied to
   * the configured credentials and the assembled options.
   */
  lemma LoadThenInstantiate(raw: Configuration.RawConfig, limiterAvailable: bool, c: Container)
    requires Load(raw, limiterAvailable, c).Success?
    ensures Configuration.Process(raw).Success?
    ensures var config := Configuration.Process(raw).value;
            var options := GetClientOptions(LoadServices(c), config, limiterAvailable).value.1;
            Instantiate(Load(raw, limiterAvailable, c).value)
            == Some(RuntimeClientFactory.CreateClient(Configuration.OrNull(raw.apiKey), Configuration.OrNull(raw.apiSecret), config.sessionKey, options))
  {
    LoadWiresRuntimeFactory(raw, limiterAvailable, c);
    var config := Configuration.Process(raw).value;
    var d := Load(raw, limiterAvailable, c).value[ClientId];
    assert CredentialOf(d.arguments[0]) == Some(Configuration.OrNull(raw.apiKey));
    assert CredentialOf(d.arguments[1]) == Some(Configuration.OrNull(raw.apiSecret));
    assert CredentialOf(d.arguments[2]) == Some(config.sessionKey);
  }

  /** With an empty configuration the service is an anonymous client with no options. */
  lemma EmptyConfigGivesAnonymousClient(limiterAvailable: bool, c: Container)
    ensures var raw := Configuration.RawConfig(Configuration.Unset, Configuration.Unset, Configuration.Unset,
                                               Configuration.Unset, Configuration.Unset);
            && Load(raw, limiterAvailable, c).Success?
            && Instantiate(Load(raw, limiterAvailable, c).value) == Some(Success(Anonymous(map[])))
  {
    var raw := Configuration.RawConfig(Configuration.Unset, Configuration.Unset, Configuration.Unset,
                                       Configuration.Unset, Configuration.Unset);
    LoadThenInstantiate(raw, limiterAvailable, c);
  }

  /** The User-Agent header is set exactly when `user_agent` is non-empty, and then equals it. */
  lemma UserAgentHeaderIff(c: Container, config: Configuration.Config, limiterAvailable: bool)
    requires GetClientOptions(c, config, limiterAvailable).Success?
    ensures var options := GetClientOptions(c, config, limiterAvailable).value.1;
            && (HeadersKey in options <==> config.userAgent.Some? && config.userAgent.value != "" && config.userAgent.value != "0")
            && (HeadersKey in options ==> options[HeadersKey] == Dict(map[UserAgentHeader := Str(config.userAgent.value)]))
  {
  }

  /**
   * Without a rate limiter no handler is set and no handler stack is
   * registered: the load adds only the services file's definitions, and the
   * middleware stays the abstract placeholder.
   */
  lemma NoRateLimiterNoHandler(raw: Configuration.RawConfig, limiterAvailable: bool, c: Container)
    requires Configuration.Process(raw).Success? && !raw.rateLimiter.Given?
    requires HandlerStackId !in c
    ensures Load(raw, limiterAvailable, c).Success?
    ensures var c' := Load(raw, limiterAvailable, c).value;
            && c'.Keys == c.Keys + {FactoryId, ClientId, MiddlewareId}
            && HandlerStackId !in c'
            && c'[MiddlewareId] == MiddlewarePlaceholder
            && HandlerKey !in c'[ClientId].arguments[3].entries
  {
  }

  /**
   * With a rate limiter and the component installed, the middleware is
   * registered with (limiter reference, "lastfm_api"), a handler stack
   * pushes it, and the options' handler references that stack.
   */
  lemma RateLimiterWired(c: Container, config: Configuration.Config, limiterAvailable: bool)
    requires NonEmpty(config.rateLimiter) && limiterAvailable
    ensures GetClientOptions(c, config, limiterAvailable).Success?
    ensures var (c', options) := GetClientOptions(c, config, limiterAvailable).value;
            && options[HandlerKey] == Ref(HandlerStackId)
            && c'[MiddlewareId] == Definition(MiddlewareClass, None, [Ref(config.rateLimiter.value), Str(LimiterKey)], [], false)
            && c'[HandlerStackId].factory == Some(StaticMethod(HandlerStackClass, "create"))
            && c'[HandlerStackId].calls == [MethodCall("push", [Ref(MiddlewareId), Str(MiddlewareName)])]
  {
  }

  /** With a rate limiter but no component, loading fails with the installation hint. */
  lemma RateLimiterUnavailableFails(raw: Configuration.RawConfig, c: Container)
    requires Configuration.Process(raw).Success?
    requires raw.rateLimiter.Given? && Truthy(raw.rateLimiter.s)
    ensures Load(raw, false, c) == Failure(RateLimiterUnavailable)
  {
  }

  /**
   * A rate-limiter id of "0" passes the configuration rule yet is treated
   * as empty by the extension: no handler, and no error even when the
   * component is missing.
   */
  lemma ZeroRateLimiterIgnored(raw: Configuration.RawConfig, limiterAvailable: bool, c: Container)
    requires raw.rateLimiter == Configuration.Given("0") && !Configuration.UserAgentInvalid(raw.userAgent)
    ensures Configuration.Process(raw).Success?
    ensures Load(raw, limiterAvailable, c).Success?
    ensures HandlerKey !in Load(raw, limiterAvailable, c).value[ClientId].arguments[3].entries
  {
    assert !Blank("0") by { assert !IsTrimChar("0"[0]); }
    TrimEmptyIffBlank("0");
  }

  /**
   * Named corollary of `Load`'s contract: the services file always provides
   * the client definition, so a load never reports it missing.
   */
  lemma LoadNeverMissesClient(raw: Configuration.RawConfig, limiterAvailable: bool, c: Container)
    ensures !Load(raw, limiterAvailable, c).Failure? || !Load(raw, limiterAvailable, c).error.ServiceNotFound?
  {
  }
}

=== FILE: php_string.dfy ===
/**
 * The few PHP string built-ins the bundle relies on.
 *
 * A PHP string is a byte string; here each `char` stands for one byte, so
 * `strlen($s)` is `|s|`.
 */
module PhpString {

  /** The characters `trim()` strips by default: " ", "\t", "\n", "\r", "\0" and "\x0B". */
  predicate IsTrimChar(c: char) {
    c == ' ' || c == '\t' || c == '\n' || c == '\r' || c == 0 as char || c == 11 as char
  }

  /** Every character of `s` at an index in `[lo, hi)` is one that `trim()` strips. */
  predicate BlankBetween(s: string, lo: int, hi: int) {
    forall k :: lo <= k < hi && 0 <= k < |s| ==> IsTrimChar(s[k])
  }

  /** Every character of `s` is one that `trim()` strips. */
  predicate Blank(s: string) {
    BlankBetween(s, 0, |s|)
  }

  /** Neither end of `s` holds a character that `trim()` strips. */
  predicate IsTrimmed(s: string) {
    |s| == 0 || (!IsTrimChar(s[0]) && !IsTrimChar(s[|s| - 1]))
  }

  /** How many trim characters `s` has from index `i` on: what `ltrim()` removes when `i` is 0. */
  function LeadingBlanks(s: string, i: nat): (n: nat)
    requires i <= |s|
    ensures i <= n <= |s| && BlankBetween(s, i, n)
    ensures n < |s| ==> !IsTrimChar(s[n])
    decreases |s| - i
  {
    if i < |s| && IsTrimChar(s[i]) then LeadingBlanks(s, i + 1) else i
  }

  /** Where the trailing trim characters of `s[lo..j]` start: what `rtrim()` keeps ends there. */
  function TrailingBlanks(s: string, lo: nat, j: nat): (n: nat)
    requires lo <= j <= |s|
    ensures lo <= n <= j && BlankBetween(s, n, j)
    ensures lo < n ==> !IsTrimChar(s[n - 1])
    decreases j - lo
  {
    if lo < j && IsTrimChar(s[j - 1]) then TrailingBlanks(s, lo, j - 1) else j
  }

  /** `r` sits at index `i` of `s` with only trim characters before and after it. */
  predicate Surrounded(s: string, r: string, i: int) {
    0 <= i <= |s| - |r| && s[i..i + |r|] == r && BlankBetween(s, 0, i) && BlankBetween(s, i + |r|, |s|)
  }

  /**
   * `trim($s)`: `s` with its leading and trailing trim characters removed.
   * The result is the piece of `s` after its leading blanks, surrounded only
   * by blanks, with no trim character at either end.
   */
  function Trim(s: string): (r: string)
    ensures IsTrimmed(r)
    ensures Surrounded(s, r, LeadingBlanks(s, 0))
  {
    var i := LeadingBlanks(s, 0);
    var j := TrailingBlanks(s, i, |s|);
    s[i..j]
  }

  /** Trimming removes everything exactly when the string is blank. */
  lemma TrimEmptyIffBlank(s: string)
    ensures Trim(s) == "" <==> Blank(s)
  {
    var i := LeadingBlanks(s, 0);
    var j := TrailingBlanks(s, i, |s|);
    assert Trim(s) == s[i..j];
  }

  /** A string without blank ends is left as it is; in particular trimming is idempotent. */
  lemma TrimmedIsFixpoint(s: string)
    requires IsTrimmed(s)
    ensures Trim(s) == s
  {
    assert LeadingBlanks(s, 0) == 0;
  }


  /** PHP's string-to-bool conversion: only "" and "0" are false. `empty($s)` is its negation. */
  predicate Truthy(s: string) {
    s != "" && s != "0"
  }

  // ----- sequence relations used to state what a message contains -----

  predicate IsSuffix(t: string, s: string) {
    |t| <= |s| && s[|s| - |t|..] == t
  }

  lemma PrefixOfConcat(a: string, b: string, c: string)
    ensures a <= a + b + c
  {
    assert (a + b + c)[..|a|] == a;
  }

  lemma SuffixOfConcat(a: string, t: string)
    ensures IsSuffix(t, a + t)
  {
    assert (a + t)[|a|..] == t;
  }

  lemma SuffixOfSuffix(t: string, s: string, a: string)
    requires IsSuffix(t, s)
    ensures IsSuffix(t, a + s)
  {
    assert (a + s)[|a| + |s| - |t|..] == s[|s| - |t|..];
  }

  /** `t` occurs in `s` starting at index `k`. */
  predicate OccursAt(t: string, s: string, k: int) {
    0 <= k <= |s| - |t| && s[k..k + |t|] == t
  }

  /** `str_contains($s, $t)`. */
  predicate IsInfix(t: string, s: string) {
    exists k :: 0 <= k <= |s| - |t| && OccursAt(t, s, k)
  }

  lemma InfixOfConcat(a: string, t: string, b: string)
    ensures IsInfix(t, a + t + b)
  {
    assert OccursAt(t, a + t + b, |a|);
  }

  lemma InfixOfSuffix(t: string, s: string, a: string)
    requires IsInfix(t, s)
    ensures IsInfix(t, a + s)
  {
    var k :| 0 <= k <= |s| - |t| && OccursAt(t, s, k);
    assert (a + s)[|a| + k..|a| + k + |t|] == s[k..k + |t|];
    assert OccursAt(t, a + s, |a| + k);
  }

  lemma InfixOfPrefix(t: string, s: string, b: string)
    requires IsInfix(t, s)
    ensures IsInfix(t, s + b)
  {
    var k :| 0 <= k <= |s| - |t| && OccursAt(t, s, k);
    assert (s + b)[k..k + |t|] == s[k..k + |t|];
    assert OccursAt(t, s + b, k);
  }

  // ----- sprintf('%d', $n) for the non-negative lengths the bundle reports -----

  predicate IsDigit(c: char) {
    '0' <= c <= '9'
  }

  predicate AllDigits(s: string) {
    forall i :: 0 <= i < |s| ==> IsDigit(s[i])
  }

  function DigitChar(d: nat): (c: char)
    requires d < 10
    ensures IsDigit(c)
  {
    (48 + d) as char
  }

  /** Decimal rendering of `n` with no leading zero, as `%d` prints it. */
  function Decimal(n: nat): (r: string)
    ensures |r| > 0 && AllDigits(r)
    ensures r[0] == '0' ==> n == 0
  {
    if n < 10 then [DigitChar(n)] else Decimal(n / 10) + [DigitChar(n % 10)]
  }

  /** The number a string of decimal digits denotes: the reader of a `%d` field. */
  function DecimalValue(s: string): nat
    requires AllDigits(s)
  {
    if |s| == 0 then 0 else 10 * DecimalValue(s[..|s| - 1]) + (s[|s| - 1] as int - 48)
  }

  /** Reading back what `Decimal` prints gives the original number. */
  lemma {:induction false} DecimalRoundTrip(n: nat)
    ensures DecimalValue(Decimal(n)) == n
  {
    if n >= 10 {
      var d := Decimal(n / 10);
      assert Decimal(n)[..|Decimal(n)| - 1] == d;
      DecimalRoundTrip(n / 10);
    }
  }

  /** The longest run of digits at the start of `s`: the text a `%d` field occupies. */
  function LeadingDigits(s: string): (r: string)
    ensures AllDigits(r) && r <= s
    ensures |r| < |s| ==> !IsDigit(s[|r|])
  {
    if |s| > 0 && IsDigit(s[0]) then [s[0]] + LeadingDigits(s[1..]) else []
  }

  /** A `%d` field followed by a non-digit is read back whole. */
  lemma {:induction false} LeadingDigitsOfConcat(d: string, rest: string)
    requires AllDigits(d)
    requires |rest| > 0 && !IsDigit(rest[0])
    ensures LeadingDigits(d + rest) == d
  {
    if |d| > 0 {
      assert (d + rest)[1..] == d[1..] + rest;
      LeadingDigitsOfConcat(d[1..], rest);
    } else {
      assert d + rest == rest;
    }
  }

  /**
   * In `lead . n . mid . rest`, the digits after `lead` read back as `n`
   * when `mid` starts with a non-digit.
   */
  lemma FormattedNumberReadsBack(lead: string, n: nat, mid: string, rest: string)
    requires |mid| > 0 && !IsDigit(mid[0])
    ensures DecimalValue(LeadingDigits((lead + Decimal(n) + mid + rest)[|lead|..])) == n
  {
    assert (lead + Decimal(n) + mid + rest)[|lead|..] == Decimal(n) + (mid + rest);
    LeadingDigitsOfConcat(Decimal(n), mid + rest);
    DecimalRoundTrip(n);
  }

  /** Distinct numbers are printed differently. */
  lemma DecimalInjective(m: nat, n: nat)
    requires Decimal(m) == Decimal(n)
    ensures m == n
  {
    DecimalRoundTrip(m);
    DecimalRoundTrip(n);
  }
}

=== FILE: runtime_client_factory.dfy ===
/**
 * The runtime client factory the container calls to build the
 * `calliostro_lastfm.lastfm_client` service: it normalises the three
 * configured credentials and picks one of four construction paths.
 */
module RuntimeClientFactory {
  import opened Wrappers
  import opened PhpString
  import opened LastFmClient

  /** Minimum byte length of an API key and of an API secret. */
  const MinCredentialLength: nat := 10

  /** The `InvalidArgumentException`s `createClient` can throw. */
  datatype BuildError =
    | IncompleteCredentials
    | ApiKeyTooShort(length: nat)
    | ApiSecretTooShort(length: nat)

  // ----- credential normalisation -----

  /**
   * `$v ? trim($v) : ''`: null and the falsy strings "" and "0" become "",
   * any other string is trimmed.
   */
  function Normalize(v: Option<string>): (r: string)
    ensures IsTrimmed(r)
    ensures r == "" || (v.Some? && r == Trim(v.value))
  {
    match v
    case None => ""
    case Some(s) => if Truthy(s) then Trim(s) else ""
  }

  /** `!empty($v)` after normalisation: the credential takes part in the decision. */
  predicate Present(v: Option<string>) {
    Truthy(Normalize(v))
  }

  /**
   * A credential counts as absent exactly when it is null, blank, "0", or
   * trims to "0".
   */
  lemma PresentIff(v: Option<string>)
    ensures Present(v) <==> v.Some? && !Blank(v.value) && v.value != "0" && Trim(v.value) != "0"
  {
    if v.Some? {
      TrimEmptyIffBlank(v.value);
      if v.value == "0" {
        assert !Blank(v.value) by { assert !IsTrimChar(v.value[0]); }
      }
    }
  }

  /** A blank string normalises to the same "" as null. */
  lemma BlankNormalizesToEmpty(s: string)
    requires Blank(s)
    ensures Normalize(Some(s)) == Normalize(None) == ""
  {
    TrimEmptyIffBlank(s);
  }

  // ----- the factory -----

  /**
   * `createClient($apiKey, $apiSecret, $sessionKey, $options)`.
   * Every client it returns carries the caller's options unchanged and
   * only trimmed, present credentials of at least ten bytes.
   */
  function CreateClient(apiKey: Option<string>, apiSecret: Option<string>, sessionKey: Option<string>, options: Options := map[])
    : (r: Result<Client, BuildError>)
    ensures r.Success? ==> r.value.options == options
    ensures r.Success? && !r.value.Anonymous? ==>
              MinCredentialLength <= |r.value.apiKey| && IsTrimmed(r.value.apiKey) && Truthy(r.value.apiKey)
    ensures r.Success? && r.value.Full? ==>
              && MinCredentialLength <= |r.value.apiSecret| && IsTrimmed(r.value.apiSecret) && Truthy(r.value.apiSecret)
              && r.value.sessionKey.Some? && IsTrimmed(r.value.sessionKey.value)
    ensures r.Success? && r.value.Anonymous? <==> !Present(apiKey) && !Present(apiSecret)
    ensures r == Failure(IncompleteCredentials) <==> !Present(apiKey) && Present(apiSecret)
  {
    var key := Normalize(apiKey);
    var secret := Normalize(apiSecret);
    var session := Normalize(sessionKey);
    if Truthy(key) && Truthy(secret) then
      CreateWithApiKeyAndSecret(key, secret, session, options)
    else if Truthy(key) then
      CreateWithApiKeyOnly(key, options)
    else if Truthy(secret) then
      Failure(IncompleteCredentials)
    else
      Success(Anonymous(options))
  }

  /** `createWithApiKeyAndSecret`: the key is checked before the secret. */
  function CreateWithApiKeyAndSecret(apiKey: string, apiSecret: string, sessionKey: string, options: Options)
    : (r: Result<Client, BuildError>)
    ensures r.Success? <==> MinCredentialLength <= |apiKey| && MinCredentialLength <= |apiSecret|
    ensures r.Failure? ==> r.error == (if |apiKey| < MinCredentialLength then ApiKeyTooShort(|apiKey|) else ApiSecretTooShort(|apiSecret|))
    ensures r.Success? ==> r.value == Full(apiKey, apiSecret, Some(sessionKey), options)
  {
    if |apiKey| < MinCredentialLength then
      Failure(ApiKeyTooShort(|apiKey|))
    else if |apiSecret| < MinCredentialLength then
      Failure(ApiSecretTooShort(|apiSecret|))
    else
      Success(Full(apiKey, apiSecret, Some(sessionKey), options))
  }

  /** `createWithApiKeyOnly`: no secret, and no session. */
  function CreateWithApiKeyOnly(apiKey: string, options: Options): (r: Result<Client, BuildError>)
    ensures r.Success? <==> MinCredentialLength <= |apiKey|
    ensures r.Failure? ==> r.error == ApiKeyTooShort(|apiKey|)
    ensures r.Success? ==> r.value == KeyOnly(apiKey, options)
  {
    if |apiKey| < MinCredentialLength then
      Failure(ApiKeyTooShort(|apiKey|))
    else
      Success(KeyOnly(apiKey, options))
  }

  // ----- the decision, path by path -----

  /** Both credentials present and long enough: an authenticated client with the trimmed values. */
  lemma FullCredentialsGiveFullClient(apiKey: Option<string>, apiSecret: Option<string>, sessionKey: Option<string>, options: Options)
    requires Present(apiKey) && Present(apiSecret)
    requires MinCredentialLength <= |Normalize(apiKey)| && MinCredentialLength <= |Normalize(apiSecret)|
    ensures CreateClient(apiKey, apiSecret, sessionKey, options)
            == Success(Full(Trim(apiKey.value), Trim(apiSecret.value), Some(Normalize(sessionKey)), options))
  {
  }

  /** Key without secret: a read-only client; whatever session key was given is ignored. */
  lemma KeyOnlyIgnoresSession(apiKey: Option<string>, apiSecret: Option<string>, sessionKey: Option<string>, options: Options)
    requires Present(apiKey) && !Present(apiSecret)
    ensures CreateClient(apiKey, apiSecret, sessionKey, options) == CreateClient(apiKey, apiSecret, None, options)
    ensures MinCredentialLength <= |Trim(apiKey.value)| ==>
              CreateClient(apiKey, apiSecret, sessionKey, options) == Success(KeyOnly(Trim(apiKey.value), options))
  {
  }

  /** A secret without a key always fails, whatever its length. */
  lemma SecretWithoutKeyFails(apiKey: Option<string>, apiSecret: Option<string>, sessionKey: Option<string>, options: Options)
    requires !Present(apiKey) && Present(apiSecret)
    ensures CreateClient(apiKey, apiSecret, sessionKey, options) == Failure(IncompleteCredentials)
  {
  }

  /**
   * A present key shorter than ten bytes after trimming is reported first,
   * whether or not a secret is given and whatever its length.
   */
  lemma ShortKeyReportedFirst(apiKey: Option<string>, apiSecret: Option<string>, sessionKey: Option<string>, options: Options)
    requires Present(apiKey) && |Normalize(apiKey)| < MinCredentialLength
    ensures CreateClient(apiKey, apiSecret, sessionKey, options) == Failure(ApiKeyTooShort(|Trim(apiKey.value)|))
  {
  }

  /** With a valid key, a present secret shorter than ten bytes after trimming is reported. */
  lemma ShortSecretReported(apiKey: Option<string>, apiSecret: Option<string>, sessionKey: Option<string>, options: Options)
    requires Present(apiKey) && Present(apiSecret)
    requires MinCredentialLength <= |Normalize(apiKey)| && |Normalize(apiSecret)| < MinCredentialLength
    ensures CreateClient(apiKey, apiSecret, sessionKey, options) == Failure(ApiSecretTooShort(|Trim(apiSecret.value)|))
  {
  }

  /** An absent key, secret or session behaves exactly like null. */
  lemma AbsentIsNull(apiKey: Option<string>, apiSecret: Option<string>, sessionKey: Option<string>, options: Options)
    ensures !Present(apiKey) ==>
              CreateClient(apiKey, apiSecret, sessionKey, options) == CreateClient(None, apiSecret, sessionKey, options)
    ensures !Present(apiSecret) ==>
              CreateClient(apiKey, apiSecret, sessionKey, options) == CreateClient(apiKey, None, sessionKey, options)
    ensures Normalize(sessionKey) == "" ==>
              CreateClient(apiKey, apiSecret, sessionKey, options) == CreateClient(apiKey, apiSecret, None, options)
  {
  }

  /** Blank credentials are treated as null: three blanks give an anonymous client. */
  lemma BlankCredentialsAreAnonymous(apiKey: string, apiSecret: string, sessionKey: string, options: Options)
    requires Blank(apiKey) && Blank(apiSecret) && Blank(sessionKey)
    ensures CreateClient(Some(apiKey), Some(apiSecret), Some(sessionKey), options) == CreateClient(None, None, None, options)
    ensures CreateClient(None, None, None, options) == Success(Anonymous(options))
  {
    BlankNormalizesToEmpty(apiKey);
    BlankNormalizesToEmpty(apiSecret);
    BlankNormalizesToEmpty(sessionKey);
  }

  /** Ten bytes is enough, nine is not: a key of exactly ten bytes alone gives a read-only client. */
  lemma KeyLengthBoundary(apiKey: string, options: Options)
    requires IsTrimmed(apiKey) && Truthy(apiKey)
    ensures |apiKey| == 10 ==> CreateClient(Some(apiKey), None, None, options) == Success(KeyOnly(apiKey, options))
    ensures |apiKey| == 9 ==> CreateClient(Some(apiKey), None, None, options) == Failure(ApiKeyTooShort(9))
  {
    TrimmedIsFixpoint(apiKey);
  }

  // ----- error messages -----

  const ApiKeyEnvPlaceholder := "%env(LASTFM_API_KEY)%"
  const SetupHeading := "To configure Last.fm API credentials:"

  /** The text of `getSetupInstructions()` up to the account-creation URL. */
  const InstructionsHead: string :=
    "\n\n" + SetupHeading + "\n1. API Key and Secret (recommended for full functionality):\n   - Get your credentials from: "

  /** The text between the URL and the first `%env(LASTFM_API_KEY)%`. */
  const InstructionsMiddle: string :=
    "\n"
    + "   - Set environment variables:\n"
    + "     LASTFM_API_KEY=your_key_here\n"
    + "     LASTFM_API_SECRET=your_secret_here\n"
    + "   - Configure in config/packages/calliostro_lastfm.yaml:\n"
    + "     calliostro_lastfm:\n"
    + "       api_key: '"

  /** The rest of the instructions. */
  const InstructionsTail: string :=
    "'\n"
    + "       api_secret: '%env(LASTFM_API_SECRET)%'\n\n"
    + "2. API Key only (read-only operations):\n"
    + "   - Set environment variable:\n"
    + "     LASTFM_API_KEY=your_key_here\n"
    + "   - Configure in config/packages/calliostro_lastfm.yaml:\n"
    + "     calliostro_lastfm:\n"
    + "       api_key: '%env(LASTFM_API_KEY)%'\n\n"
    + "3. Anonymous access (very limited functionality):\n"
    + "   - No configuration needed, but only basic public endpoints available\n"

  /** `getSetupInstructions()`: where to get credentials and how to configure them. */
  const SetupInstructions: string :=
    InstructionsHead + AccountCreateUrl + InstructionsMiddle + ApiKeyEnvPlaceholder + InstructionsTail

  const IncompleteCredentialsText := "Incomplete API credentials provided. API key is required when API secret is provided. "
  const ApiKeyTooShortLead := "API key must be at least 10 characters long, got "
  const ApiSecretTooShortLead := "API secret must be at least 10 characters long, got "
  const LengthTail := " characters. "

  /** The sentence each error starts with, with the reported length printed by `%d`. */
  function Reason(e: BuildError): string {
    match e
    case IncompleteCredentials => IncompleteCredentialsText
    case ApiKeyTooShort(n) => ApiKeyTooShortLead + Decimal(n) + LengthTail
    case ApiSecretTooShort(n) => ApiSecretTooShortLead + Decimal(n) + LengthTail
  }

  /** The exception message: the reason followed by the setup instructions. */
  function Message(e: BuildError): string {
    Reason(e) + SetupInstructions
  }

  /** The instructions name the heading, the account-creation URL and the environment placeholder. */
  lemma SetupInstructionsHelpful()
    ensures IsInfix(SetupHeading, SetupInstructions)
    ensures IsInfix(AccountCreateUrl, SetupInstructions)
    ensures IsInfix(ApiKeyEnvPlaceholder, SetupInstructions)
  {
    var head, middle, tail := InstructionsHead, InstructionsMiddle, InstructionsTail;
    InfixOfConcat("\n\n", SetupHeading, "\n1. API Key and Secret (recommended for full functionality):\n   - Get your credentials from: ");
    InfixOfPrefix(SetupHeading, head, AccountCreateUrl);
    InfixOfPrefix(SetupHeading, head + AccountCreateUrl, middle);
    InfixOfPrefix(SetupHeading, head + AccountCreateUrl + middle, ApiKeyEnvPlaceholder);
    InfixOfPrefix(SetupHeading, head + AccountCreateUrl + middle + ApiKeyEnvPlaceholder, tail);
    InfixOfConcat(head, AccountCreateUrl, middle);
    InfixOfPrefix(AccountCreateUrl, head + AccountCreateUrl + middle, ApiKeyEnvPlaceholder);
    InfixOfPrefix(AccountCreateUrl, head + AccountCreateUrl + middle + ApiKeyEnvPlaceholder, tail);
    InfixOfConcat(head + AccountCreateUrl + middle, ApiKeyEnvPlaceholder, tail);
  }

  /** Whatever precedes them, the setup instructions end the text and bring their landmarks along. */
  lemma InstructionsAfter(lead: string)
    ensures IsSuffix(SetupInstructions, lead + SetupInstructions)
    ensures IsInfix(SetupHeading, lead + SetupInstructions)
    ensures IsInfix(AccountCreateUrl, lead + SetupInstructions)
    ensures IsInfix(ApiKeyEnvPlaceholder, lead + SetupInstructions)
  {
    SuffixOfConcat(lead, SetupInstructions);
    SetupInstructionsHelpful();
    InfixOfSuffix(SetupHeading, SetupInstructions, lead);
    InfixOfSuffix(AccountCreateUrl, SetupInstructions, lead);
    InfixOfSuffix(ApiKeyEnvPlaceholder, SetupInstructions, lead);
  }

  /**
   * Every error message ends with the setup instructions, and so names the
   * account-creation URL and the `%env(LASTFM_API_KEY)%` placeholder.
   */
  lemma MessageEndsWithInstructions(e: BuildError)
    ensures IsSuffix(SetupInstructions, Message(e))
    ensures IsInfix(SetupHeading, Message(e))
    ensures IsInfix(AccountCreateUrl, Message(e))
    ensures IsInfix(ApiKeyEnvPlaceholder, Message(e))
  {
    InstructionsAfter(Reason(e));
  }

  /**
   * A short key's error states its actual trimmed length: the message starts
   * with the fixed lead, and the digits right after it read back as that length.
   */
  lemma KeyMessageReportsLength(n: nat)
    ensures ApiKeyTooShortLead <= Reason(ApiKeyTooShort(n))
    ensures DecimalValue(LeadingDigits(Message(ApiKeyTooShort(n))[|ApiKeyTooShortLead|..])) == n
  {
    PrefixOfConcat(ApiKeyTooShortLead, Decimal(n), LengthTail);
    FormattedNumberReadsBack(ApiKeyTooShortLead, n, LengthTail, SetupInstructions);
  }

  /** The same for a short secret. */
  lemma SecretMessageReportsLength(n: nat)
    ensures ApiSecretTooShortLead <= Reason(ApiSecretTooShort(n))
    ensures DecimalValue(LeadingDigits(Message(ApiSecretTooShort(n))[|ApiSecretTooShortLead|..])) == n
  {
    PrefixOfConcat(ApiSecretTooShortLead, Decimal(n), LengthTail);
    FormattedNumberReadsBack(ApiSecretTooShortLead, n, LengthTail, SetupInstructions);
  }
}

=== FILE: wrappers.dfy ===
/** Option and Result types shared by every module. */
module Wrappers {

  /** A PHP `?T`: either `null` (None) or a value. */
  datatype Option<+T> = None | Some(value: T)

  /** The outcome of an operation that either returns a value or throws. */
  datatype Result<+R, +E> = Success(value: R) | Failure(error: E)
}
